=== FILE: README.md ===
# Crop-and-submit state machine of the deepfake-detection UI

This project models the logic of the React image analyzers as immutable
component-state records and pure `(state, event) -> state` transitions,
over exact `real` geometry and abstract network outcomes.

- `Geometry`, `Coordinates`, `CropBox`, `Raster`: the on-screen geometry. This covers
  the container-relative pointer position, the centred default box chosen when
  the image loads, and the square resize rule applied while dragging. It also
  covers mapping the box from rendered to natural pixels for the 160 x 160 draw.
- `Submission`: files, the JPEG/PNG guard, the two detection endpoints, and the
  busy/result/error lifecycle around one POST. All three analyzers share it.
- `CropAnalyzer`: the state machine of `AugmentedAnalyzer.jsx` and
  `ImageAnalyzer_old.jsx`. Their logic is identical, so it is written once.
  A `Variant` parameter selects the endpoint and the Analyze-button guard.
  The FileReader `onloadend` callback, the image `onLoad`, the canvas `toBlob`
  callback and the settled `fetch` are separate events. `Run` folds a sequence of
  events and collects the `drawImage` calls.
- `CropLemmas`: properties over runs. The crop box stays a square inside the
  rendered image. A cropped preview always stands for the cropped JPEG.
  Gestures touch only the crop fields. After a recrop, the same drag reproduces
  the same draw.
- `SimpleAnalyzer`: `ImageAnalyzer.jsx`, with no cropping and with file
  selection or drop.

`CropAnalyzer.CropState` also records the files whose FileReader has been
started and has not yet called back (`reading`). `handleFileChange` starts a
read only for an accepted file, so the JPEG/PNG check is what proves that the
crop analyzers only ever hold JPEG or PNG files.

The run lemmas take explicit hypotheses, in two layers:
- `CropLemmas.ReaderFaithful`: the FileReader completes only reads that
  `handleFileChange` started and that are still pending (a fact of the
  browser). This is the only hypothesis of the file invariant
  (`CropLemmas.FilesSane`), of `ReachableHoldsOnlyAllowedFiles` and of
  `ReachableEnabledAnalyzePostsCrop`: those hold whatever the pointer does.
- `CropLemmas.Admissible` adds two more, for the box invariant
  (`CropLemmas.BoxSane`) only. A rendered size is non-negative (a fact of the
  browser). A press lands over the recorded image: this is NOT guaranteed,
  because the container can extend past the image and the handlers do not
  check it. Only `RunKeepsSane` and `CropBoxAlwaysInside` take it.
  `CropLemmas.OffImageDragNeverGrows` and `CropLemmas.OffImageDragCommitsNothing`
  show what happens when a press lands right of or below the image: the box
  never grows and no artifact is made.

Some behaviours of the code are easy to misread; the model follows the code:
- The default box on image load uses the RENDERED size (`e.target.width/height`),
  not the natural size.
- `clearImage` does not reset `error`, `isAnalyzing`, `isDragging` or
  `imageSize`, and does not cancel a pending file read. A clear therefore returns to the freshly mounted state only under
  the conditions `ClearIsFreshIff` names.
- In `ImageAnalyzer.jsx`, choosing a file does not clear `result`.
- In `ImageAnalyzer.jsx`, `handleAnalyze` has no `image` guard of its own. It
  posts whatever `image` holds, and only the button's visibility protects it.
- A failed `response.json()` or a rejected `fetch` sets the error to the thrown
  error's own message. Only a non-ok status gives `'Analysis failed'`.

## Model

| member | source | states |
|---|---|---|
| Coordinates.EventCoordinates | src/components/AugmentedAnalyzer.jsx:47-58 | a position exists iff the container is mounted and the event has a mouse position or a first touch point; adding the container's left/top back gives the client position |
| Coordinates.ClientPosition | src/components/AugmentedAnalyzer.jsx:51-52 | a mouse event yields its client position, a touch event its first touch point, and a touch event with no touch point yields nothing |
| CropBox.CenteredDefault | src/components/AugmentedAnalyzer.jsx:37-45 | the load-time box is square, twice its side is the shorter rendered dimension, its margins are equal on both axes, and it lies inside a non-negative image |
| CropBox.Resize | src/components/AugmentedAnalyzer.jsx:81-96 | the move keeps the origin and makes the box square; the side is the GREATEST side within both pointer distances and both image edges; side >= 0 iff the origin is not right of or below the image; an origin inside the image gives a box inside the image |
| Raster.SourceRect | src/components/AugmentedAnalyzer.jsx:112-117 | each source coordinate times the rendered extent equals the box coordinate times the natural extent (per axis) |
| Raster.SourceRectInsideBitmap | src/components/AugmentedAnalyzer.jsx:112-117 | a box inside the rendered image is drawn from a rectangle inside the natural bitmap |
| Raster.SourceRectSquareIff | src/components/ImageAnalyzer_old.jsx:117-120 | a square box maps to a square source iff the box is empty or the image is scaled equally on both axes |
| Raster.SourceRectRoundTrip | src/components/ImageAnalyzer_old.jsx:117-120 | scaling the source rectangle back by rendered/natural recovers the box exactly |
| Submission.Screen | src/components/AugmentedAnalyzer.jsx:21-34 | the error is cleared iff a file exists with type exactly image/jpeg or image/png, otherwise it is the invalid-file message; busy and result are untouched |
| Submission.Begin | src/components/AugmentedAnalyzer.jsx:133-134 | a submission starts busy with no error and the old result |
| Submission.Finish | src/components/AugmentedAnalyzer.jsx:144-152 | busy is false after every outcome; ok sets the result and keeps the error; not-ok keeps the result and sets 'Analysis failed'; a throw keeps the result and sets its message |
| Submission.SubmissionLifecycle | src/components/AugmentedAnalyzer.jsx:132-152 | over a whole submission, the error is absent iff the response was ok, and a failure keeps the previous result |
| CropAnalyzer.FileChanged | src/components/AugmentedAnalyzer.jsx:19-35 | the error is cleared iff the file is accepted, otherwise it is the invalid-file message; a read is started for exactly the accepted file; the image is not set yet and nothing else changes |
| CropAnalyzer.ReaderLoaded | src/components/AugmentedAnalyzer.jsx:23-29 | the read's file becomes the image and its data URL the original, and the read is no longer pending; the crop preview, box and result are reset; error, busy, drag flag and image size are kept |
| CropAnalyzer.ImageLoaded | src/components/AugmentedAnalyzer.jsx:37-45 | the rendered size is recorded and the box becomes the centred default, inside the image for non-negative sizes; nothing else changes |
| CropAnalyzer.PointerDown | src/components/AugmentedAnalyzer.jsx:60-72 | without coordinates nothing changes; otherwise dragging starts with an empty box at the pointer; only the drag flag and box change |
| CropAnalyzer.PointerMove | src/components/AugmentedAnalyzer.jsx:74-97 | a no-op unless dragging with coordinates; otherwise only the box changes, the origin stays even for up/left drags, and the box is the greatest square within the pointer and the right/bottom image edges |
| CropAnalyzer.PointerUp | src/components/AugmentedAnalyzer.jsx:99-127 | a no-op unless dragging; it always ends the drag and changes nothing else; it draws iff canvas and image are mounted and the side is positive; the draw reads the scaled box into the full 160 x 160 canvas |
| CropAnalyzer.BlobReady | src/components/AugmentedAnalyzer.jsx:121-126 | a missing blob changes nothing; a blob makes the image the cropped JPEG 'cropped.jpg' and shows the canvas URL; nothing else changes |
| CropAnalyzer.Recrop | src/components/AugmentedAnalyzer.jsx:166-169 | only the crop preview and box are reset (overlay hidden); the image (still the cropped file) and the result are kept |
| CropAnalyzer.Clear | src/components/AugmentedAnalyzer.jsx:155-164 | image, original and cropped URLs, result and box are reset; error, busy, drag flag, image size and pending reads are kept |
| CropAnalyzer.AnalyzeClicked | src/components/AugmentedAnalyzer.jsx:129-142 | with no image nothing happens and nothing is posted; otherwise busy is set, the error cleared, the result kept, and the image posted under 'file' to the variant's endpoint |
| CropAnalyzer.ResponseArrived | src/components/ImageAnalyzer_old.jsx:148-156 | busy is false in every outcome; not-ok gives 'Analysis failed' with the result unchanged; ok sets the result; only the status changes |
| CropLemmas.InitialIsSane | src/components/AugmentedAnalyzer.jsx:4-12 | the freshly mounted state satisfies the invariant |
| CropLemmas.StepKeepsSane | src/components/ImageAnalyzer_old.jsx:19-173 | every admissible event (presses over the image) preserves the whole invariant: the file invariant plus a non-negative image size and a square box inside it |
| CropLemmas.StepKeepsFilesSane | src/components/ImageAnalyzer_old.jsx:19-173 | every event whose reader callback completes a pending read keeps the file invariant, wherever a press lands: only JPEG/PNG files are held or being read (carried by the type check of line 21), and a crop preview appears only beside the cropped JPEG |
| CropLemmas.RunKeepsFilesSane | src/components/ImageAnalyzer_old.jsx:19-173 | every run with faithful reads from a state satisfying the file invariant ends in one that does too |
| CropLemmas.ReachableHoldsOnlyAllowedFiles | src/components/ImageAnalyzer_old.jsx:19-173 | along every run from mount with faithful reads, the held image is always JPEG or PNG, and a crop preview always stands for the cropped JPEG |
| CropLemmas.RunKeepsSane | src/components/ImageAnalyzer_old.jsx:19-173 | every admissible run from a state that satisfies the invariant ends in one that does too |
| CropLemmas.CropBoxAlwaysInside | src/components/ImageAnalyzer_old.jsx:82-98 | along every admissible run from mount, the box is square and inside the rendered image |
| CropLemmas.CommittedDrawInsideBitmap | src/components/ImageAnalyzer_old.jsx:106-122 | when the image has not been re-rendered at another size, every draw reads inside the natural bitmap into a square destination |
| CropLemmas.EnabledAnalyzePostsCrop | src/components/AugmentedAnalyzer.jsx:288-296 | in any state satisfying the file invariant, whenever either variant's Analyze button is enabled, clicking posts the cropped JPEG under 'file' to the variant's endpoint and sets busy |
| CropLemmas.ReachableEnabledAnalyzePostsCrop | src/components/ImageAnalyzer_old.jsx:296-302 | along every run from mount with faithful reads, presses anywhere, whenever either variant's Analyze button is enabled, the click posts the cropped JPEG to the variant's endpoint |
| CropLemmas.AnalyzeLifecycle | src/components/ImageAnalyzer_old.jsx:133-157 | with no image the click does nothing; otherwise busy ends false, ok gives the result with no error, not-ok gives 'Analysis failed' with the old result, and no other field changes |
| CropLemmas.ClearIsFreshIff | src/components/ImageAnalyzer_old.jsx:159-168 | clear yields the freshly mounted state iff there is no error, no analysis, no drag, no recorded image size and no pending file read |
| CropLemmas.GesturesTouchOnlyCrop | src/components/ImageAnalyzer_old.jsx:61-131 | any sequence of presses, moves and releases changes only the drag flag and the crop box |
| CropLemmas.GesturesAgree | src/components/ImageAnalyzer_old.jsx:61-131 | gestures from states that agree on drag flag, box and image size end agreeing and issue the same draws |
| CropLemmas.LocatedPressForgetsOldBox | src/components/ImageAnalyzer_old.jsx:61-131 | from any two states over the same rendered image, a gesture path that starts with a located press issues the same draws and ends with the same box |
| CropLemmas.RecropThenSameDragReproduces | src/components/ImageAnalyzer_old.jsx:170-173 | the recrop case of the above: after a recrop (which keeps the image size), repeating the first drag's path reproduces exactly its draws and box |
| CropLemmas.OffImageDragNeverGrows | src/components/AugmentedAnalyzer.jsx:84-89 | a box anchored right of or below the image keeps a side <= 0, its origin and the image size under any moves |
| CropLemmas.OffImageDragCommitsNothing | src/components/AugmentedAnalyzer.jsx:84-106 | a drag anchored right of or below the image, moved anywhere and then released, issues no draw |
| CropLemmas.OffImageReleaseDrawsNothing | src/components/AugmentedAnalyzer.jsx:106 | a release with side <= 0 ends the drag and draws nothing |
| CropLemmas.DragScenario | src/components/ImageAnalyzer_old.jsx:82-122 | 800 x 600 shown at 400 x 300, dragged from (50,50) to (150,120): box (50,50,70,70) and one draw from (100,100,140,140) into (0,0,160,160) |
| SimpleAnalyzer.FilePicked | src/components/ImageAnalyzer.jsx:11-24 | an accepted file becomes the image at once and the error is cleared; otherwise the image is kept and the invalid-file message set; preview, busy and result are untouched |
| SimpleAnalyzer.Dropped | src/components/ImageAnalyzer.jsx:30-44 | a dropped file becomes the image and clears the error iff it is present with type JPEG or PNG, and then the image is exactly that file; otherwise the image is kept and the invalid-file message set; the preview is untouched |
| SimpleAnalyzer.ReaderLoaded | src/components/ImageAnalyzer.jsx:16-18 | the reader's result becomes the preview; nothing else changes |
| SimpleAnalyzer.AnalyzeClicked | src/components/ImageAnalyzer.jsx:46-57 | busy is set, the error cleared, the result kept, and the current image posted under 'file' to the simple endpoint |
| SimpleAnalyzer.ResponseArrived | src/components/ImageAnalyzer.jsx:59-67 | busy is false in every outcome; ok sets the parsed result; not-ok sets 'Analysis failed' without touching the result |
| SimpleAnalyzer.Clear | src/components/ImageAnalyzer.jsx:70-77 | image, preview and result are reset; error and busy are kept |
| SimpleAnalyzer.DropActsLikeSelect | src/components/ImageAnalyzer.jsx:11-44 | the separately written drop and select handlers have exactly the same effect on every state and file |
| SimpleAnalyzer.RunKeepsSane | src/components/ImageAnalyzer.jsx:11-77 | along every run, a held image always has media type image/jpeg or image/png |
| SimpleAnalyzer.EnabledAnalyzePostsAllowedFile | src/components/ImageAnalyzer.jsx:144-150 | whenever the Analyze button is enabled after any run from mount, the posted file exists and passed the type guard |
| SimpleAnalyzer.AnalyzeLifecycle | src/components/ImageAnalyzer.jsx:46-68 | busy ends false; ok gives the result with no error; not-ok gives 'Analysis failed' with the old result; image and preview are untouched |
| SimpleAnalyzer.ClearIsFreshIff | src/components/ImageAnalyzer.jsx:70-77 | clear yields the freshly mounted state iff no error is shown and no analysis runs; this model has no pending-read field, so a read pending at the clear can still set the preview afterwards |

## Left out

- Rendering: JSX markup, styling and icons. The only parts kept are the guards
  the properties use: the overlay is shown iff `cropBox.width > 0`, and the
  Analyze button's visibility and disabled conditions.
- Pixel resampling by `drawImage` and JPEG encoding by `toBlob`/`toDataURL`. Only
  the source and destination rectangles are modelled. The blob and data URL
  arrive as opaque inputs of `BlobReady`.
- `fetch`, `FormData` and JSON parsing. They are network I/O. The response is an
  abstract `Outcome`: ok with an opaque parsed body, not ok, or thrown with a
  message. The body is taken to be a JSON object, so a stored result is always
  truthy.
- The hard-coded base URLs of the detection service. Only the endpoint paths
  are modelled.
- The result panels' `toFixed` percentage and time formatting. This is
  floating-point string formatting.
- Resetting `fileInputRef.current.value` on clear, and `preventDefault`. These are
  DOM side effects with no component state.
- Asynchronous interleavings, such as a stale response after a new file, or
  reader and blob callbacks racing with user events. Each callback is an event
  applied in whatever order the run lists it. `CropLemmas.ReaderFaithful` only lets
  a reader complete a read that was started and is still pending.
- IEEE floating point. Geometry is exact `real`, so rounding, NaN and Infinity
  are not modelled.
- Raster.ImgElement: the rendered width and height are positive. The source
  would divide by zero for a zero-sized image and draw from a non-finite
  rectangle.
- CropLemmas.CommittedDrawInsideBitmap: assumes the image's rendered size at
  release equals the size recorded at load. The model keeps the two apart, and
  the source never re-reads the size after a resize.
- Coordinates.ClientPosition: a touch event with no touch point throws a
  `TypeError` in the source before any state update. The model treats it as
  "no coordinates", which has the same effect on state.
- `src/App.js`: composition only, no logic.

=== FILE: coordinates.dfy ===
/**
 * The coordinate mapper: pointer and touch positions in client (viewport)
 * pixels, turned into positions relative to the crop container.
 */
module Coordinates {
  import opened Options
  import opened Geometry

  /** The part of `getBoundingClientRect()` the mapper reads. */
  datatype ClientRect = ClientRect(left: real, top: real)

  /**
   * A pointer event: a mouse event carries `clientX`/`clientY`, a touch
   * event carries its list of active touch points (each a client position).
   */
  datatype Pointer =
    | Mouse(clientX: real, clientY: real)
    | Touch(touches: seq<Point>)

  /**
   * The client position the handler reads: the mouse position, or the first
   * touch point. With no touch point reading the first touch point throws
   * before any state update, which is modelled as "no position".
   */
  function ClientPosition(p: Pointer): (r: Option<Point>)
    ensures r.None? <==> p.Touch? && |p.touches| == 0
    ensures p.Mouse? ==> r == Some(Point(p.clientX, p.clientY))
    ensures p.Touch? && |p.touches| > 0 ==> r == Some(p.touches[0])
  {
    match p
    case Mouse(cx, cy) => Some(Point(cx, cy))
    case Touch(ts) => if |ts| == 0 then None else Some(ts[0])
  }

  /**
   * `getEventCoordinates`: the container-relative position of the event, or
   * nothing when the container is not mounted or no position exists.
   */
  function EventCoordinates(container: Option<ClientRect>, p: Pointer): (r: Option<Point>)
    ensures r.Some? <==> container.Some? && ClientPosition(p).Some?
    ensures r.Some? ==>
      && r.value.x + container.value.left == ClientPosition(p).value.x
      && r.value.y + container.value.top == ClientPosition(p).value.y
  {
    match container
    case None => None
    case Some(rect) =>
      match ClientPosition(p)
      case None => None
      case Some(c) => Some(Point(c.x - rect.left, c.y - rect.top))
  }
}

=== FILE: crop_analyzer.dfy ===
/**
 * The state machine of the two cropping analyzers (the augmented analyzer
 * and the older simple-endpoint one). Both keep the same component state and
 * run the same handlers; they differ only in the endpoint they post to and
 * in when their Analyze button is enabled. Every React handler, and every
 * asynchronous callback it schedules, is a pure transition on `CropState`.
 */
module CropAnalyzer {
  import opened Options
  import opened Geometry
  import opened Coordinates
  import opened CropBox
  import opened Raster
  import opened Submission

  /** `AugmentedAnalyzer.jsx` or `ImageAnalyzer_old.jsx`. */
  datatype Variant = Augmented | Legacy

  function ModeOf(v: Variant): Mode {
    match v
    case Augmented => AugmentedDetect
    case Legacy => SimpleDetect
  }

  /**
   * The component's `useState` slots (`isAnalyzing`, `result` and `error` in
   * `status`), together with `reading`: the files whose `FileReader` has
   * been started and has not yet called back. Each started reader delivers
   * its own file, which its callback closes over.
   */
  datatype CropState = CropState(
    image: Option<File>,
    originalUrl: Option<string>,
    croppedUrl: Option<string>,
    status: Status,
    isDragging: bool,
    cropBox: Rect,
    imageSize: Size,
    reading: multiset<File>)

  /** The freshly mounted component. */
  const Initial := CropState(None, None, None, IdleStatus, false, EmptyRect, Size(0.0, 0.0), multiset{})

  const CroppedName := "cropped.jpg"

  /** The file the blob callback wraps the canvas blob in: a JPEG named `cropped.jpg`. */
  function CroppedFile(blob: seq<Byte>): File {
    File(CroppedName, JpegType, blob)
  }

  /** A cropped artifact: the file the canvas blob callback creates. */
  predicate IsCroppedArtifact(f: File) {
    f.name == CroppedName && f.mediaType == JpegType
  }

  /** JavaScript truthiness of a nullable string. */
  predicate Truthy(u: Option<string>) {
    u.Some? && u.value != ""
  }

  /** The blue overlay is rendered iff `cropBox.width > 0`. */
  predicate OverlayShown(s: CropState) {
    s.cropBox.width > 0.0
  }

  /**
   * Whether the Analyze button can be clicked. The augmented analyzer only
   * renders it inside the cropped-image panel and only while there is no
   * result; the older one renders it whenever an image is shown and disables
   * it while analyzing or without a cropped image.
   */
  predicate AnalyzeEnabled(v: Variant, s: CropState) {
    match v
    case Augmented =>
      Truthy(s.originalUrl) && Truthy(s.croppedUrl) && s.status.result.None? && !s.status.isAnalyzing
    case Legacy =>
      Truthy(s.originalUrl) && !(s.status.isAnalyzing || !Truthy(s.croppedUrl))
  }

  /**
   * `handleFileChange`, synchronous part: the error is set or cleared, and
   * reading is started for an accepted file only; the read finishes later
   * with `ReaderLoaded`. The image itself does not change yet.
   */
  function FileChanged(s: CropState, file: Option<File>): (r: CropState)
    ensures r.status.error.None? <==> Accepts(file)
    ensures !Accepts(file) ==> r.status.error == Some(InvalidFileMessage)
    ensures Accepts(file) ==> r.reading == s.reading + multiset{file.value}
    ensures !Accepts(file) ==> r.reading == s.reading
    ensures r.(status := s.status, reading := s.reading) == s
    ensures r.status.(error := s.status.error) == s.status
  {
    if Accepts(file) then
      s.(status := Screen(s.status, file), reading := s.reading + multiset{file.value})
    else s.(status := Screen(s.status, file))
  }

  /** The `reader.onloadend` callback of a started read: it delivers that read's file. */
  function ReaderLoaded(s: CropState, file: File, dataUrl: Option<string>): (r: CropState)
    ensures r.image == Some(file) && r.originalUrl == dataUrl
    ensures r.reading == s.reading - multiset{file}
    ensures r.croppedUrl.None? && r.cropBox == EmptyRect && r.status.result.None?
    ensures !OverlayShown(r)
    ensures r.status.error == s.status.error && r.status.isAnalyzing == s.status.isAnalyzing
    ensures r.isDragging == s.isDragging && r.imageSize == s.imageSize
  {
    s.(image := Some(file), originalUrl := dataUrl, croppedUrl := None,
       cropBox := EmptyRect, status := s.status.(result := None),
       reading := s.reading - multiset{file})
  }

  /** `onImageLoad`: record the rendered size and centre the default box. */
  function ImageLoaded(s: CropState, width: real, height: real): (r: CropState)
    ensures r.imageSize == Size(width, height)
    ensures r.cropBox == CenteredDefault(r.imageSize)
    ensures width >= 0.0 && height >= 0.0 ==> Inside(r.cropBox, r.imageSize)
    ensures r.(imageSize := s.imageSize, cropBox := s.cropBox) == s
  {
    var sz := Size(width, height);
    s.(imageSize := sz, cropBox := CenteredDefault(sz))
  }

  /** `handleStart`: begin a drag with an empty box anchored at the pointer. */
  function PointerDown(s: CropState, container: Option<ClientRect>, p: Pointer): (r: CropState)
    ensures EventCoordinates(container, p).None? ==> r == s
    ensures EventCoordinates(container, p).Some? ==>
      var q := EventCoordinates(container, p).value;
      r.isDragging && r.cropBox == Rect(q.x, q.y, 0.0, 0.0)
    ensures r.(isDragging := s.isDragging, cropBox := s.cropBox) == s
  {
    match EventCoordinates(container, p)
    case None => s
    case Some(q) => s.(isDragging := true, cropBox := Rect(q.x, q.y, 0.0, 0.0))
  }

  /**
   * `handleMove`: while dragging, resize the box to the largest square that
   * fits between its fixed origin, the pointer and the image's right and
   * bottom edges.
   */
  function PointerMove(s: CropState, container: Option<ClientRect>, p: Pointer): (r: CropState)
    ensures !s.isDragging || EventCoordinates(container, p).None? ==> r == s
    ensures r.(cropBox := s.cropBox) == s
    ensures r.cropBox.x == s.cropBox.x && r.cropBox.y == s.cropBox.y
    ensures s.isDragging && EventCoordinates(container, p).Some? ==>
      && IsSquare(r.cropBox)
      && r.cropBox.x + r.cropBox.width <= s.imageSize.width
      && r.cropBox.y + r.cropBox.height <= s.imageSize.height
      && (r.cropBox.width >= 0.0 <==> s.cropBox.x <= s.imageSize.width && s.cropBox.y <= s.imageSize.height)
      && Fits(s.cropBox, EventCoordinates(container, p).value, s.imageSize, r.cropBox.width)
      && (forall t :: Fits(s.cropBox, EventCoordinates(container, p).value, s.imageSize, t) ==> t <= r.cropBox.width)
  {
    if !s.isDragging then s
    else
      match EventCoordinates(container, p)
      case None => s
      case Some(q) => s.(cropBox := Resize(s.cropBox, q, s.imageSize))
  }

  /** The state after `handleEnd` and the `drawImage` call it issued, if any. */
  datatype Release = Release(state: CropState, draw: Option<DrawCall>)

  /**
   * `handleEnd` (mouse up or leave, touch end or cancel): stop dragging, and
   * draw the box into the 160 x 160 canvas when the canvas and image are
   * mounted and the box is non-empty.
   */
  function PointerUp(s: CropState, canvasMounted: bool, img: Option<ImgElement>): (r: Release)
    ensures !r.state.isDragging
    ensures !s.isDragging ==> r.state == s && r.draw.None?
    ensures r.state.(isDragging := s.isDragging) == s
    ensures r.draw.Some? <==> s.isDragging && canvasMounted && img.Some? && s.cropBox.width > 0.0
    ensures r.draw.Some? ==>
      && r.draw.value.src == SourceRect(s.cropBox, img.value)
      && r.draw.value.dst == Rect(0.0, 0.0, OutputSide, OutputSide)
  {
    if !s.isDragging then Release(s, None)
    else
      var t := s.(isDragging := false);
      if !canvasMounted || img.None? || s.cropBox.width <= 0.0 then Release(t, None)
      else Release(t, Some(DrawCall(SourceRect(s.cropBox, img.value), Rect(0.0, 0.0, OutputSide, OutputSide))))
  }

  /**
   * The `canvas.toBlob` callback: when a blob arrives, the cropped JPEG
   * replaces the image to submit and its data URL is shown.
   */
  function BlobReady(s: CropState, blob: Option<seq<Byte>>, dataUrl: string): (r: CropState)
    ensures blob.None? ==> r == s
    ensures blob.Some? ==> r.image == Some(CroppedFile(blob.value)) && r.croppedUrl == Some(dataUrl)
    ensures r.image.Some? && s.image != r.image ==> IsCroppedArtifact(r.image.value)
    ensures r.(image := s.image, croppedUrl := s.croppedUrl) == s
  {
    match blob
    case None => s
    case Some(b) => s.(image := Some(CroppedFile(b)), croppedUrl := Some(dataUrl))
  }

  /** `handleRecrop`: drop the cropped preview and the box, keep everything else. */
  function Recrop(s: CropState): (r: CropState)
    ensures r.croppedUrl.None? && r.cropBox == EmptyRect && !OverlayShown(r)
    ensures r.image == s.image && r.status == s.status
    ensures r.(croppedUrl := s.croppedUrl, cropBox := s.cropBox) == s
  {
    s.(croppedUrl := None, cropBox := EmptyRect)
  }

  /** `clearImage`: forget the image, its previews, the result and the box. */
  function Clear(s: CropState): (r: CropState)
    ensures r.image.None? && r.originalUrl.None? && r.croppedUrl.None?
    ensures r.status.result.None? && r.cropBox == EmptyRect
    ensures r.status.error == s.status.error && r.status.isAnalyzing == s.status.isAnalyzing
    ensures r.isDragging == s.isDragging && r.imageSize == s.imageSize
    ensures r.reading == s.reading
  {
    s.(image := None, originalUrl := None, croppedUrl := None,
       status := s.status.(result := None), cropBox := EmptyRect)
  }

  /** The state after the synchronous part of `handleAnalyze` and the POST it issued. */
  datatype Submit = Submit(state: CropState, request: Option<Request>)

  /**
   * `handleAnalyze` up to the `await`: without an image nothing happens;
   * otherwise busy is set, the error cleared and the image posted under
   * the `file` field to the variant's endpoint.
   */
  function AnalyzeClicked(v: Variant, s: CropState): (r: Submit)
    ensures s.image.None? ==> r.state == s && r.request.None?
    ensures s.image.Some? ==>
      && r.state.status.isAnalyzing && r.state.status.error.None?
      && r.state.status.result == s.status.result
      && r.request == Some(Request(EndpointPath(ModeOf(v)), FileField, s.image))
    ensures r.state.(status := s.status) == s
  {
    if s.image.None? then Submit(s, None)
    else Submit(s.(status := Begin(s.status)),
                Some(Request(EndpointPath(ModeOf(v)), FileField, s.image)))
  }

  /** The awaited response of `handleAnalyze` settles. */
  function ResponseArrived(s: CropState, outcome: Outcome): (r: CropState)
    ensures !r.status.isAnalyzing
    ensures outcome.Ok? ==> r.status.result == Some(outcome.data) && r.status.error == s.status.error
    ensures outcome.NotOk? ==> r.status.result == s.status.result && r.status.error == Some(AnalysisFailedMessage)
    ensures outcome.Thrown? ==> r.status.result == s.status.result && r.status.error == Some(outcome.message)
    ensures r.(status := s.status) == s
  {
    s.(status := Finish(s.status, outcome))
  }

  /** User actions, DOM callbacks and settled promises, in the order they occur. */
  datatype Event =
    | SelectFile(file: Option<File>)
    | ReadDone(readFile: File, readResult: Option<string>)
    | ImageLoad(width: real, height: real)
    | Down(container: Option<ClientRect>, pointer: Pointer)
    | Move(container: Option<ClientRect>, pointer: Pointer)
    | Up(canvasMounted: bool, img: Option<ImgElement>)
    | BlobDone(blob: Option<seq<Byte>>, canvasUrl: string)
    | RecropClick
    | ClearClick
    | AnalyzeClick
    | Response(outcome: Outcome)
  {
    /** The pointer gestures over the crop container. */
    predicate IsGesture() {
      Down? || Move? || Up?
    }
  }

  /** One event's new state, with the draw or POST it issued. */
  datatype Transition = Transition(state: CropState, draw: Option<DrawCall>, request: Option<Request>)

  function Step(v: Variant, s: CropState, e: Event): Transition {
    match e
    case SelectFile(f) => Transition(FileChanged(s, f), None, None)
    case ReadDone(f, u) => Transition(ReaderLoaded(s, f, u), None, None)
    case ImageLoad(w, h) => Transition(ImageLoaded(s, w, h), None, None)
    case Down(c, p) => Transition(PointerDown(s, c, p), None, None)
    case Move(c, p) => Transition(PointerMove(s, c, p), None, None)
    case Up(m, img) =>
      var r := PointerUp(s, m, img);
      Transition(r.state, r.draw, None)
    case BlobDone(b, u) => Transition(BlobReady(s, b, u), None, None)
    case RecropClick => Transition(Recrop(s), None, None)
    case ClearClick => Transition(Clear(s), None, None)
    case AnalyzeClick =>
      var r := AnalyzeClicked(v, s);
      Transition(r.state, None, r.request)
    case Response(o) => Transition(ResponseArrived(s, o), None, None)
  }

  /** The final state of a run and the draws it issued, in order. */
  datatype Replay = Replay(state: CropState, draws: seq<DrawCall>)

  function Run(v: Variant, s: CropState, evs: seq<Event>): Replay
    decreases |evs|
  {
    if |evs| == 0 then Replay(s, [])
    else
      var t := Step(v, s, evs[0]);
      var rest := Run(v, t.state, evs[1..]);
      var drawn := if t.draw.Some? then [t.draw.value] else [];
      Replay(rest.state, drawn + rest.draws)
  }
}

=== FILE: crop_box.dfy ===
/**
 * The geometric rules of the crop box, shared by both cropping analyzers:
 * the centred default chosen when the image loads, and the square resize
 * applied on every pointer move while dragging.
 */
module CropBox {
  import opened Geometry

  /**
   * `onImageLoad`'s default box for an image rendered at `sz`: a square of
   * side half the shorter rendered dimension, centred in the image.
   */
  function CenteredDefault(sz: Size): (b: Rect)
    ensures IsSquare(b)
    ensures 2.0 * b.width <= sz.width && 2.0 * b.width <= sz.height
    ensures 2.0 * b.width == sz.width || 2.0 * b.width == sz.height
    ensures b.x == sz.width - (b.x + b.width)
    ensures b.y == sz.height - (b.y + b.height)
    ensures NonNegative(sz) ==> Inside(b, sz)
  {
    var side := Min(sz.width, sz.height) / 2.0;
    Rect((sz.width - side) / 2.0, (sz.height - side) / 2.0, side, side)
  }

  /**
   * Side `t` is admissible for a box anchored at `prev`'s origin and dragged
   * to `p` inside an image of size `sz`: it reaches neither past the
   * pointer's horizontal or vertical distance nor past the right or bottom
   * edge.
   */
  ghost predicate Fits(prev: Rect, p: Point, sz: Size, t: real) {
    && t <= Abs(p.x - prev.x)
    && t <= Abs(p.y - prev.y)
    && prev.x + t <= sz.width
    && prev.y + t <= sz.height
  }

  /**
   * The crop-box update `handleMove` makes: the origin stays,
   * and the side becomes the largest admissible one.
   */
  function Resize(prev: Rect, p: Point, sz: Size): (b: Rect)
    ensures b.x == prev.x && b.y == prev.y
    ensures IsSquare(b)
    ensures Fits(prev, p, sz, b.width)
    ensures forall t :: Fits(prev, p, sz, t) ==> t <= b.width
    ensures b.x + b.width <= sz.width && b.y + b.height <= sz.height
    ensures b.width >= 0.0 <==> prev.x <= sz.width && prev.y <= sz.height
    ensures Within(Point(prev.x, prev.y), sz) ==> Inside(b, sz)
  {
    var size := Min4(Abs(p.x - prev.x), Abs(p.y - prev.y),
                     sz.width - prev.x, sz.height - prev.y);
    prev.(width := size, height := size)
  }
}

=== FILE: crop_lemmas.dfy ===
/**
 * Properties of the cropping analyzers' state machine over whole runs of
 * events: the crop box stays a square inside the rendered image, a cropped
 * preview always stands for a cropped JPEG, a gesture touches only the crop
 * fields, and redrawing the same drag after a recrop reproduces the crop.
 */
module CropLemmas {
  import opened Options
  import opened Geometry
  import opened Coordinates
  import opened CropBox
  import opened Raster
  import opened Submission
  import opened CropAnalyzer

  /**
   * The file part of the invariant: only JPEG or PNG files are held or being
   * read, and a cropped preview is only ever shown beside the cropped JPEG.
   */
  predicate FilesSane(s: CropState) {
    && (s.image.Some? ==> AllowedType(s.image.value.mediaType))
    && (forall f :: f in s.reading ==> AllowedType(f.mediaType))
    && (s.croppedUrl.Some? ==> s.image.Some? && IsCroppedArtifact(s.image.value))
  }

  /** The geometric part of the invariant: a square box inside a non-negative image. */
  predicate BoxSane(s: CropState) {
    && NonNegative(s.imageSize)
    && IsSquare(s.cropBox)
    && Inside(s.cropBox, s.imageSize)
  }

  /** The invariant every state reached under `Admissible` keeps. */
  predicate Sane(s: CropState) {
    FilesSane(s) && BoxSane(s)
  }

  /**
   * A reader only completes a read that `handleFileChange` started and that
   * is still pending; this is a fact of the browser, and the only
   * hypothesis the file invariant needs.
   */
  predicate ReaderFaithful(s: CropState, e: Event) {
    e.ReadDone? ==> e.readFile in s.reading
  }

  predicate ReaderFaithfulRun(v: Variant, s: CropState, evs: seq<Event>)
    decreases |evs|
  {
    |evs| == 0 ||
    (ReaderFaithful(s, evs[0]) && ReaderFaithfulRun(v, Step(v, s, evs[0]).state, evs[1..]))
  }

  /**
   * The hypotheses of the box invariant, on top of `ReaderFaithful`. An image
   * renders with a non-negative size, a fact of the browser. That a press
   * lands over the recorded image is NOT guaranteed: the container can
   * extend past the image, and the recorded size goes stale when the image
   * is re-laid out; the handlers do not check it. Only the lemmas that take
   * `AdmissibleRun` (`RunKeepsSane`, `CropBoxAlwaysInside`) assume it;
   * `OffImageDragNeverGrows` and `OffImageDragCommitsNothing` say what
   * happens when a press lands right of or below the image.
   */
  predicate Admissible(s: CropState, e: Event) {
    && ReaderFaithful(s, e)
    && match e
       case Down(c, p) =>
         EventCoordinates(c, p).None? || Within(EventCoordinates(c, p).value, s.imageSize)
       case ImageLoad(w, h) => w >= 0.0 && h >= 0.0
       case _ => true
  }

  predicate AdmissibleRun(v: Variant, s: CropState, evs: seq<Event>)
    decreases |evs|
  {
    |evs| == 0 ||
    (Admissible(s, evs[0]) && AdmissibleRun(v, Step(v, s, evs[0]).state, evs[1..]))
  }

  lemma InitialIsSane()
    ensures Sane(Initial)
  {
  }

  /**
   * Every event whose reader callback (if any) completes a pending read
   * keeps the file invariant, whatever the pointer does.
   */
  lemma StepKeepsFilesSane(v: Variant, s: CropState, e: Event)
    requires FilesSane(s) && ReaderFaithful(s, e)
    ensures FilesSane(Step(v, s, e).state)
  {
  }

  /** The file invariant holds along every run whose reads are faithful. */
  lemma {:induction false} RunKeepsFilesSane(v: Variant, s: CropState, evs: seq<Event>)
    requires FilesSane(s) && ReaderFaithfulRun(v, s, evs)
    ensures FilesSane(Run(v, s, evs).state)
    decreases |evs|
  {
    if |evs| > 0 {
      StepKeepsFilesSane(v, s, evs[0]);
      RunKeepsFilesSane(v, Step(v, s, evs[0]).state, evs[1..]);
    }
  }

  /**
   * From mount, along every run whose reads are faithful (presses anywhere),
   * the analyzer only ever holds a JPEG or PNG file, and a cropped preview
   * stands for the cropped JPEG: the JPEG/PNG check of `handleFileChange`
   * and the blob callback carry this.
   */
  lemma ReachableHoldsOnlyAllowedFiles(v: Variant, evs: seq<Event>)
    requires ReaderFaithfulRun(v, Initial, evs)
    ensures var s := Run(v, Initial, evs).state;
      && (s.image.Some? ==> AllowedType(s.image.value.mediaType))
      && (s.croppedUrl.Some? ==> s.image.Some? && IsCroppedArtifact(s.image.value))
  {
    InitialIsSane();
    RunKeepsFilesSane(v, Initial, evs);
  }

  /** One admissible event keeps the whole invariant. */
  lemma StepKeepsSane(v: Variant, s: CropState, e: Event)
    requires Sane(s) && Admissible(s, e)
    ensures Sane(Step(v, s, e).state)
  {
  }

  /** Every admissible run from a sane state ends in a sane state. */
  lemma {:induction false} RunKeepsSane(v: Variant, s: CropState, evs: seq<Event>)
    requires Sane(s) && AdmissibleRun(v, s, evs)
    ensures Sane(Run(v, s, evs).state)
    decreases |evs|
  {
    if |evs| > 0 {
      StepKeepsSane(v, s, evs[0]);
      RunKeepsSane(v, Step(v, s, evs[0]).state, evs[1..]);
    }
  }

  /**
   * From the freshly mounted component, along any admissible run (every
   * press over the recorded image), the crop box is always a square inside
   * the rendered image.
   */
  lemma CropBoxAlwaysInside(v: Variant, evs: seq<Event>)
    requires AdmissibleRun(v, Initial, evs)
    ensures var s := Run(v, Initial, evs).state;
      IsSquare(s.cropBox) && Inside(s.cropBox, s.imageSize)
  {
    RunKeepsSane(v, Initial, evs);
  }

  /** Every draw of a sane state reads a rectangle inside the bitmap when the image has not been resized since it loaded. */
  lemma CommittedDrawInsideBitmap(s: CropState, canvasMounted: bool, img: ImgElement)
    requires Sane(s)
    requires img.Rendered() == s.imageSize && NonNegative(img.Natural())
    ensures var r := PointerUp(s, canvasMounted, Some(img));
      r.draw.Some? ==> Inside(r.draw.value.src, img.Natural()) && IsSquare(r.draw.value.dst)
  {
  }

  /**
   * The Analyze button, when enabled, posts the cropped JPEG to the
   * variant's endpoint; only the file invariant is needed.
   */
  lemma EnabledAnalyzePostsCrop(v: Variant, s: CropState)
    requires FilesSane(s) && AnalyzeEnabled(v, s)
    ensures var r := AnalyzeClicked(v, s);
      && r.request.Some?
      && r.request.value.path == EndpointPath(ModeOf(v))
      && r.request.value.field == FileField
      && r.request.value.file.Some?
      && IsCroppedArtifact(r.request.value.file.value)
      && r.state.status.isAnalyzing
  {
  }

  /**
   * Along every run from mount whose reads are faithful, with presses
   * anywhere, whenever either variant's Analyze button is enabled, clicking
   * it posts the cropped JPEG produced by the last committed drag: the
   * file-type check and the blob callback together guarantee it, not any
   * check in `handleAnalyze`.
   */
  lemma ReachableEnabledAnalyzePostsCrop(v: Variant, evs: seq<Event>)
    requires ReaderFaithfulRun(v, Initial, evs)
    requires AnalyzeEnabled(v, Run(v, Initial, evs).state)
    ensures var r := AnalyzeClicked(v, Run(v, Initial, evs).state);
      && r.request.Some?
      && r.request.value.path == EndpointPath(ModeOf(v))
      && r.request.value.file.Some?
      && IsCroppedArtifact(r.request.value.file.value)
  {
    InitialIsSane();
    RunKeepsFilesSane(v, Initial, evs);
    EnabledAnalyzePostsCrop(v, Run(v, Initial, evs).state);
  }

  /**
   * A whole analysis: with no image nothing changes; otherwise busy is false
   * afterwards, success sets the result with no error, and failure keeps
   * the previous result beside an error.
   */
  lemma AnalyzeLifecycle(v: Variant, s: CropState, outcome: Outcome)
    ensures s.image.None? ==> AnalyzeClicked(v, s).state == s
    ensures s.image.Some? ==>
      var r := ResponseArrived(AnalyzeClicked(v, s).state, outcome);
      && !r.status.isAnalyzing
      && (outcome.Ok? ==> r.status.result == Some(outcome.data) && r.status.error.None?)
      && (outcome.NotOk? ==> r.status.result == s.status.result && r.status.error == Some(AnalysisFailedMessage))
      && (outcome.Thrown? ==> r.status.result == s.status.result && r.status.error == Some(outcome.message))
      && r.(status := s.status) == s
  {
  }

  /**
   * Clearing returns to the freshly mounted state exactly when nothing
   * `clearImage` leaves alone differs from it: no error shown, no analysis
   * running, no drag in progress, no recorded image size and no file read
   * still pending (its callback would load the file after the clear).
   */
  lemma ClearIsFreshIff(s: CropState)
    ensures Clear(s) == Initial <==>
      && s.status.error.None? && !s.status.isAnalyzing && !s.isDragging
      && s.imageSize == Size(0.0, 0.0) && s.reading == multiset{}
  {
  }

  predicate AllGestures(evs: seq<Event>) {
    forall i :: 0 <= i < |evs| ==> evs[i].IsGesture()
  }

  predicate AllMoves(evs: seq<Event>) {
    forall i :: 0 <= i < |evs| ==> evs[i].Move?
  }

  /** Pointer gestures change nothing but the drag flag and the crop box. */
  lemma {:induction false} GesturesTouchOnlyCrop(v: Variant, s: CropState, evs: seq<Event>)
    requires AllGestures(evs)
    ensures Run(v, s, evs).state.(isDragging := s.isDragging, cropBox := s.cropBox) == s
    decreases |evs|
  {
    if |evs| > 0 {
      assert evs[0].IsGesture();
      var t := Step(v, s, evs[0]).state;
      assert t.(isDragging := s.isDragging, cropBox := s.cropBox) == s;
      assert AllGestures(evs[1..]) by {
        forall i | 0 <= i < |evs[1..]| ensures evs[1..][i].IsGesture() {
          assert evs[1..][i] == evs[i + 1];
        }
      }
      GesturesTouchOnlyCrop(v, t, evs[1..]);
    }
  }

  /** Two states the gesture handlers cannot tell apart. */
  predicate SameDragView(a: CropState, b: CropState) {
    a.isDragging == b.isDragging && a.cropBox == b.cropBox && a.imageSize == b.imageSize
  }

  /** Gestures from indistinguishable states end indistinguishable and draw the same. */
  lemma {:induction false} GesturesAgree(v: Variant, a: CropState, b: CropState, evs: seq<Event>)
    requires SameDragView(a, b) && AllGestures(evs)
    ensures SameDragView(Run(v, a, evs).state, Run(v, b, evs).state)
    ensures Run(v, a, evs).draws == Run(v, b, evs).draws
    decreases |evs|
  {
    if |evs| > 0 {
      assert evs[0].IsGesture();
      var ta := Step(v, a, evs[0]);
      var tb := Step(v, b, evs[0]);
      assert SameDragView(ta.state, tb.state) && ta.draw == tb.draw;
      assert AllGestures(evs[1..]) by {
        forall i | 0 <= i < |evs[1..]| ensures evs[1..][i].IsGesture() {
          assert evs[1..][i] == evs[i + 1];
        }
      }
      GesturesAgree(v, ta.state, tb.state, evs[1..]);
    }
  }

  /**
   * A drag that starts with a located press forgets the box it replaced and
   * the drag state before it: from any two states over the same rendered
   * image, the same gesture path issues the same draws and ends with the
   * same box.
   */
  lemma LocatedPressForgetsOldBox(v: Variant, first: CropState, later: CropState, evs: seq<Event>)
    requires first.imageSize == later.imageSize
    requires |evs| > 0 && evs[0].Down? && EventCoordinates(evs[0].container, evs[0].pointer).Some?
    requires AllGestures(evs)
    ensures Run(v, later, evs).draws == Run(v, first, evs).draws
    ensures Run(v, later, evs).state.cropBox == Run(v, first, evs).state.cropBox
  {
    var a := Step(v, later, evs[0]);
    var b := Step(v, first, evs[0]);
    assert SameDragView(a.state, b.state);
    assert AllGestures(evs[1..]) by {
      forall i | 0 <= i < |evs[1..]| ensures evs[1..][i].IsGesture() {
        assert evs[1..][i] == evs[i + 1];
      }
    }
    GesturesAgree(v, a.state, b.state, evs[1..]);
  }

  /**
   * One case of the above: a recrop keeps the rendered image size, so after
   * a recrop, repeating the first drag's path reproduces exactly the first
   * drag's draws, hence the same 160 x 160 artifact. The recrop itself is
   * not what makes this hold; the located press is.
   */
  lemma RecropThenSameDragReproduces(v: Variant, first: CropState, later: CropState, evs: seq<Event>)
    requires first.imageSize == later.imageSize
    requires |evs| > 0 && evs[0].Down? && EventCoordinates(evs[0].container, evs[0].pointer).Some?
    requires AllGestures(evs)
    ensures Run(v, Recrop(later), evs).draws == Run(v, first, evs).draws
    ensures Run(v, Recrop(later), evs).state.cropBox == Run(v, first, evs).state.cropBox
  {
    LocatedPressForgetsOldBox(v, first, Recrop(later), evs);
  }

  /**
   * A press right of or below the image (the container can be slightly
   * larger than the image) gives a box whose side never becomes positive
   * however the pointer moves, so releasing it draws nothing.
   */
  lemma {:induction false} OffImageDragNeverGrows(v: Variant, s: CropState, evs: seq<Event>)
    requires s.cropBox.x > s.imageSize.width || s.cropBox.y > s.imageSize.height
    requires s.cropBox.width <= 0.0
    requires AllMoves(evs)
    ensures var r := Run(v, s, evs).state;
      r.cropBox.width <= 0.0 && r.cropBox.x == s.cropBox.x && r.cropBox.y == s.cropBox.y
    ensures Run(v, s, evs).state.imageSize == s.imageSize
    decreases |evs|
  {
    if |evs| > 0 {
      assert evs[0].Move?;
      var t := Step(v, s, evs[0]).state;
      assert t.imageSize == s.imageSize;
      assert AllMoves(evs[1..]) by {
        forall i | 0 <= i < |evs[1..]| ensures evs[1..][i].Move? {
          assert evs[1..][i] == evs[i + 1];
        }
      }
      OffImageDragNeverGrows(v, t, evs[1..]);
    }
  }

  /**
   * ...so a drag pressed right of or below the image, moved anywhere and
   * then released, commits no artifact.
   */
  lemma {:induction false} OffImageDragCommitsNothing(v: Variant, s: CropState, moves: seq<Event>, up: Event)
    requires s.cropBox.x > s.imageSize.width || s.cropBox.y > s.imageSize.height
    requires s.cropBox.width <= 0.0
    requires AllMoves(moves) && up.Up?
    ensures Run(v, s, moves + [up]).draws == []
    decreases |moves|
  {
    if |moves| == 0 {
      assert moves + [up] == [up];
      assert Run(v, s, [up]).draws == [] by {
        assert [up][1..] == [];
      }
    } else {
      assert moves[0].Move?;
      var t := Step(v, s, moves[0]);
      assert t.draw.None? && t.state.imageSize == s.imageSize;
      OffImageDragNeverGrows(v, s, [moves[0]]) by {
        assert AllMoves([moves[0]]);
      }
      assert Run(v, s, [moves[0]]).state == Run(v, t.state, []).state by {
        assert [moves[0]][1..] == [];
      }
      assert AllMoves(moves[1..]) by {
        forall i | 0 <= i < |moves[1..]| ensures moves[1..][i].Move? {
          assert moves[1..][i] == moves[i + 1];
        }
      }
      assert (moves + [up])[1..] == moves[1..] + [up];
      OffImageDragCommitsNothing(v, t.state, moves[1..], up);
    }
  }

  /** A release with a side that is not positive ends the drag and commits no artifact. */
  lemma OffImageReleaseDrawsNothing(s: CropState, canvasMounted: bool, img: Option<ImgElement>)
    requires s.cropBox.width <= 0.0
    ensures PointerUp(s, canvasMounted, img).draw.None?
    ensures !PointerUp(s, canvasMounted, img).state.isDragging
  {
  }

  /**
   * An 800 x 600 image shown at 400 x 300, dragged from (50, 50) to
   * (150, 120): the side is min(100, 70, 350, 250) = 70 and the canvas is
   * drawn from the natural-pixel square (100, 100, 140, 140).
   */
  lemma DragScenario(v: Variant)
    ensures
      var img := ImgElement(800.0, 600.0, 400.0, 300.0);
      var at := Some(ClientRect(0.0, 0.0));
      var evs := [ImageLoad(400.0, 300.0), Down(at, Mouse(50.0, 50.0)),
                  Move(at, Mouse(150.0, 120.0)), Up(true, Some(img))];
      var r := Run(v, Initial, evs);
      && r.draws == [DrawCall(Rect(100.0, 100.0, 140.0, 140.0), Rect(0.0, 0.0, 160.0, 160.0))]
      && r.state.cropBox == Rect(50.0, 50.0, 70.0, 70.0)
      && !r.state.isDragging
  {
    var img := ImgElement(800.0, 600.0, 400.0, 300.0);
    var at := Some(ClientRect(0.0, 0.0));
    var evs := [ImageLoad(400.0, 300.0), Down(at, Mouse(50.0, 50.0)),
                Move(at, Mouse(150.0, 120.0)), Up(true, Some(img))];
    var s1 := Step(v, Initial, evs[0]).state;
    var s2 := Step(v, s1, evs[1]).state;
    assert s2.cropBox == Rect(50.0, 50.0, 0.0, 0.0);
    var s3 := Step(v, s2, evs[2]).state;
    assert s3.cropBox == Rect(50.0, 50.0, 70.0, 70.0);
    var t4 := Step(v, s3, evs[3]);
    assert t4.draw == Some(DrawCall(Rect(100.0, 100.0, 140.0, 140.0), Rect(0.0, 0.0, 160.0, 160.0)));
    var d := DrawCall(Rect(100.0, 100.0, 140.0, 140.0), Rect(0.0, 0.0, 160.0, 160.0));
    assert Run(v, s3, evs[3..]) == Replay(t4.state, [d]) by {
      assert evs[3..][1..] == [];
    }
    assert Run(v, s2, evs[2..]) == Replay(t4.state, [d]) by {
      assert evs[2..][1..] == evs[3..];
    }
    assert Run(v, s1, evs[1..]) == Replay(t4.state, [d]) by {
      assert evs[1..][1..] == evs[2..];
    }
  }
}

=== FILE: geometry.dfy ===
/**
 * On-screen geometry shared by the cropping analyzers: points, sizes and
 * axis-aligned rectangles over exact `real` coordinates, with the two
 * `Math` operations the drag rule uses.
 */
module Geometry {

  datatype Point = Point(x: real, y: real)

  datatype Size = Size(width: real, height: real)

  /** An axis-aligned rectangle: origin (top-left corner) and extent. */
  datatype Rect = Rect(x: real, y: real, width: real, height: real)

  /** The all-zero crop box the handlers reset to. */
  const EmptyRect := Rect(0.0, 0.0, 0.0, 0.0)

  /** `Math.abs` */
  function Abs(a: real): (r: real)
    ensures r >= 0.0
    ensures r == a || r == -a
  {
    if a < 0.0 then -a else a
  }

  /** Two-argument `Math.min` */
  function Min(a: real, b: real): (r: real)
    ensures r <= a && r <= b
    ensures r == a || r == b
  {
    if a <= b then a else b
  }

  /** Four-argument `Math.min` */
  function Min4(a: real, b: real, c: real, d: real): (r: real)
    ensures r <= a && r <= b && r <= c && r <= d
    ensures r == a || r == b || r == c || r == d
  {
    Min(Min(Min(a, b), c), d)
  }

  predicate IsSquare(r: Rect) {
    r.width == r.height
  }

  /** `r` has no negative extent and lies within `[0, w] x [0, h]`. */
  predicate Inside(r: Rect, sz: Size) {
    && 0.0 <= r.x && 0.0 <= r.y
    && 0.0 <= r.width && 0.0 <= r.height
    && r.x + r.width <= sz.width
    && r.y + r.height <= sz.height
  }

  /** A size both of whose extents are non-negative. */
  predicate NonNegative(sz: Size) {
    sz.width >= 0.0 && sz.height >= 0.0
  }

  predicate Within(p: Point, sz: Size) {
    0.0 <= p.x <= sz.width && 0.0 <= p.y <= sz.height
  }
}

=== FILE: options.dfy ===
/** The `null`-or-value slots of the components' React state. */
module Options {

  datatype Option<+T> = None | Some(value: T)
}

=== FILE: raster.dfy ===
/**
 * The rasterizer's arithmetic: the crop box, drawn in rendered (CSS) pixels,
 * is mapped to a source rectangle in the bitmap's natural pixels and drawn
 * into a fixed 160 x 160 canvas. Pixel resampling and JPEG encoding are
 * opaque; only the rectangles handed to `drawImage` are modelled.
 */
module Raster {
  import opened Geometry

  /** Side of the output canvas, in pixels. */
  const OutputSide: real := 160.0

  type Positive = r: real | r > 0.0 witness 1.0

  /**
   * The `<img>` element read at the end of a drag: the bitmap's natural size
   * and its rendered size. A displayed image has a positive rendered size.
   */
  datatype ImgElement = ImgElement(naturalWidth: real, naturalHeight: real,
                                   width: Positive, height: Positive)
  {
    function Rendered(): Size { Size(width, height) }
    function Natural(): Size { Size(naturalWidth, naturalHeight) }
  }

  /** The source and destination rectangles handed to the canvas `drawImage` call. */
  datatype DrawCall = DrawCall(src: Rect, dst: Rect)

  /** Maps a rectangle in rendered pixels to natural pixels. */
  function SourceRect(box: Rect, img: ImgElement): (src: Rect)
    ensures src.x * img.width == box.x * img.naturalWidth
    ensures src.y * img.height == box.y * img.naturalHeight
    ensures src.width * img.width == box.width * img.naturalWidth
    ensures src.height * img.height == box.height * img.naturalHeight
  {
    var sx := img.naturalWidth / img.width;
    var sy := img.naturalHeight / img.height;
    Rect(box.x * sx, box.y * sy, box.width * sx, box.height * sy)
  }

  /**
   * A box inside the rendered image maps to a source rectangle inside the
   * natural bitmap.
   */
  lemma SourceRectInsideBitmap(box: Rect, img: ImgElement)
    requires Inside(box, img.Rendered())
    requires NonNegative(img.Natural())
    ensures Inside(SourceRect(box, img), img.Natural())
  {
  }

  /**
   * A square box maps to a square source rectangle exactly when the box is
   * degenerate or the image is scaled by the same factor on both axes.
   */
  lemma SourceRectSquareIff(box: Rect, img: ImgElement)
    requires IsSquare(box)
    ensures IsSquare(SourceRect(box, img)) <==>
      box.width == 0.0 || img.naturalWidth * img.height == img.naturalHeight * img.width
  {
  }

  /**
   * Mapping the source rectangle back by the inverse scale recovers the box,
   * so the natural-pixel rectangle carries exactly the drawn selection.
   */
  lemma SourceRectRoundTrip(box: Rect, img: ImgElement)
    requires img.naturalWidth > 0.0 && img.naturalHeight > 0.0
    ensures var src := SourceRect(box, img);
      && src.x * (img.width / img.naturalWidth) == box.x
      && src.y * (img.height / img.naturalHeight) == box.y
      && src.width * (img.width / img.naturalWidth) == box.width
      && src.height * (img.height / img.naturalHeight) == box.height
  {
  }
}

=== FILE: simple_analyzer.dfy ===
/**
 * The upload-and-submit analyzer without cropping: the chosen file itself
 * is posted to the simple detection endpoint.
 */
module SimpleAnalyzer {
  import opened Options
  import opened Submission

  /** The component's `useState` slots (`isAnalyzing`, `result` and `error` in `status`). */
  datatype SimpleState = SimpleState(image: Option<File>, previewUrl: Option<string>, status: Status)

  /** The freshly mounted component. */
  const Initial := SimpleState(None, None, IdleStatus)

  /**
   * `handleFileChange`: an accepted file becomes the image at once and
   * clears the error (its preview arrives later with `ReaderLoaded`);
   * anything else only sets the error.
   */
  function FilePicked(s: SimpleState, file: Option<File>): (r: SimpleState)
    ensures Accepts(file) ==> r.image == file && r.status.error.None?
    ensures !Accepts(file) ==> r.image == s.image && r.status.error == Some(InvalidFileMessage)
    ensures r.previewUrl == s.previewUrl
    ensures r.status.(error := s.status.error) == s.status
  {
    var st := Screen(s.status, file);
    if Accepts(file) then s.(image := file, status := st) else s.(status := st)
  }

  /**
   * `handleDrop`, written out on its own as the component repeats it: the
   * dropped file is set as the image when it is present and of type JPEG or
   * PNG, and the error cleared; otherwise the invalid-file message is shown.
   */
  function Dropped(s: SimpleState, file: Option<File>): (r: SimpleState)
    ensures file.Some? && AllowedType(file.value.mediaType) ==> r.image == file
    ensures !(file.Some? && AllowedType(file.value.mediaType)) ==> r.image == s.image
    ensures r.status.error.None? <==> file.Some? && AllowedType(file.value.mediaType)
    ensures r.status.error.Some? ==> r.image == s.image && r.status.error == Some(InvalidFileMessage)
    ensures r.previewUrl == s.previewUrl
    ensures r.status.(error := s.status.error) == s.status
  {
    match file
    case Some(f) =>
      if f.mediaType == JpegType || f.mediaType == PngType then
        SimpleState(file, s.previewUrl, s.status.(error := None))
      else SimpleState(s.image, s.previewUrl, s.status.(error := Some(InvalidFileMessage)))
    case None =>
      SimpleState(s.image, s.previewUrl, s.status.(error := Some(InvalidFileMessage)))
  }

  /** The `reader.onloadend` callback: show the data URL (null when the read failed). */
  function ReaderLoaded(s: SimpleState, dataUrl: Option<string>): (r: SimpleState)
    ensures r.previewUrl == dataUrl
    ensures r.(previewUrl := s.previewUrl) == s
  {
    s.(previewUrl := dataUrl)
  }

  /** The Analyze button is rendered once an image is chosen and disabled while analyzing. */
  predicate AnalyzeEnabled(s: SimpleState) {
    s.image.Some? && !s.status.isAnalyzing
  }

  /** The state after the synchronous part of `handleAnalyze` and the POST it issued. */
  datatype Submit = Submit(state: SimpleState, request: Request)

  /**
   * `handleAnalyze` up to the `await`: it has no guard of its own, so it
   * always sets busy, clears the error and posts whatever `image` holds.
   */
  function AnalyzeClicked(s: SimpleState): (r: Submit)
    ensures r.state.status.isAnalyzing && r.state.status.error.None?
    ensures r.state.status.result == s.status.result
    ensures r.state.(status := s.status) == s
    ensures r.request == Request(EndpointPath(SimpleDetect), FileField, s.image)
  {
    Submit(s.(status := Begin(s.status)), Request(EndpointPath(SimpleDetect), FileField, s.image))
  }

  /** The awaited response of `handleAnalyze` settles. */
  function ResponseArrived(s: SimpleState, outcome: Outcome): (r: SimpleState)
    ensures !r.status.isAnalyzing
    ensures outcome.Ok? ==> r.status.result == Some(outcome.data) && r.status.error == s.status.error
    ensures outcome.NotOk? ==> r.status.result == s.status.result && r.status.error == Some(AnalysisFailedMessage)
    ensures outcome.Thrown? ==> r.status.result == s.status.result && r.status.error == Some(outcome.message)
    ensures r.(status := s.status) == s
  {
    s.(status := Finish(s.status, outcome))
  }

  /** `clearImage`: forget the image, its preview and the result. */
  function Clear(s: SimpleState): (r: SimpleState)
    ensures r.image.None? && r.previewUrl.None? && r.status.result.None?
    ensures r.status.error == s.status.error && r.status.isAnalyzing == s.status.isAnalyzing
  {
    SimpleState(None, None, s.status.(result := None))
  }

  datatype Event =
    | SelectFile(file: Option<File>)
    | DropFile(file: Option<File>)
    | ReadDone(dataUrl: Option<string>)
    | AnalyzeClick
    | Response(outcome: Outcome)
    | ClearClick

  function Step(s: SimpleState, e: Event): SimpleState {
    match e
    case SelectFile(f) => FilePicked(s, f)
    case DropFile(f) => Dropped(s, f)
    case ReadDone(u) => ReaderLoaded(s, u)
    case AnalyzeClick => AnalyzeClicked(s).state
    case Response(o) => ResponseArrived(s, o)
    case ClearClick => Clear(s)
  }

  function Run(s: SimpleState, evs: seq<Event>): SimpleState
    decreases |evs|
  {
    if |evs| == 0 then s else Run(Step(s, evs[0]), evs[1..])
  }

  /** Only files of an allowed media type are ever held. */
  predicate Sane(s: SimpleState) {
    s.image.Some? ==> AllowedType(s.image.value.mediaType)
  }

  /**
   * The two separately written handlers agree: dropping a file onto the
   * zone has exactly the effect of selecting it.
   */
  lemma DropActsLikeSelect(s: SimpleState, f: Option<File>)
    ensures Dropped(s, f) == FilePicked(s, f)
    ensures Step(s, DropFile(f)) == Step(s, SelectFile(f))
  {
  }

  /** Every run, from any state holding an allowed file or none, holds only allowed files. */
  lemma {:induction false} RunKeepsSane(s: SimpleState, evs: seq<Event>)
    requires Sane(s)
    ensures Sane(Run(s, evs))
    decreases |evs|
  {
    if |evs| > 0 {
      assert Sane(Step(s, evs[0]));
      RunKeepsSane(Step(s, evs[0]), evs[1..]);
    }
  }

  /** When Analyze can be clicked, the posted file passed the JPEG/PNG guard. */
  lemma EnabledAnalyzePostsAllowedFile(evs: seq<Event>)
    requires AnalyzeEnabled(Run(Initial, evs))
    ensures var f := AnalyzeClicked(Run(Initial, evs)).request.file;
      f.Some? && AllowedType(f.value.mediaType)
  {
    RunKeepsSane(Initial, evs);
  }

  /**
   * A whole analysis: busy is false afterwards, success sets the parsed
   * result with no error, and failure keeps the previous result beside an
   * error.
   */
  lemma AnalyzeLifecycle(s: SimpleState, outcome: Outcome)
    ensures var r := ResponseArrived(AnalyzeClicked(s).state, outcome);
      && !r.status.isAnalyzing
      && (outcome.Ok? ==> r.status.result == Some(outcome.data) && r.status.error.None?)
      && (outcome.NotOk? ==> r.status.result == s.status.result && r.status.error == Some(AnalysisFailedMessage))
      && (outcome.Thrown? ==> r.status.result == s.status.result && r.status.error == Some(outcome.message))
      && r.image == s.image && r.previewUrl == s.previewUrl
  {
  }

  /**
   * Clearing returns to the freshly mounted state record exactly when no
   * error is shown and no analysis runs. This model keeps no pending reads,
   * so a clear made while a read is pending also counts as fresh, although
   * that read's `onloadend` will still set `previewUrl` afterwards.
   */
  lemma ClearIsFreshIff(s: SimpleState)
    ensures Clear(s) == Initial <==> s.status.error.None? && !s.status.isAnalyzing
  {
  }
}

=== FILE: submission.dfy ===
/**
 * Files, the media-type guard and the analysis lifecycle shared by all three
 * analyzers: the busy flag, the last result and the last error move through
 * the same steps around one POST to the detection service.
 */
module Submission {
  import opened Options

  newtype Byte = b: int | 0 <= b < 256

  /** A browser `File`: name, declared media type and content. */
  datatype File = File(name: string, mediaType: string, bytes: seq<Byte>)

  const JpegType := "image/jpeg"
  const PngType := "image/png"

  const InvalidFileMessage := "Please select a valid JPEG or PNG image."
  const AnalysisFailedMessage := "Analysis failed"

  /** The multipart field name the file is sent under. */
  const FileField := "file"

  predicate AllowedType(mediaType: string) {
    mediaType == JpegType || mediaType == PngType
  }

  /** A file is present and its declared media type is exactly JPEG or PNG. */
  predicate Accepts(file: Option<File>) {
    file.Some? && AllowedType(file.value.mediaType)
  }

  /** The parsed JSON body of a successful response, kept opaque. */
  datatype Detection = Detection(json: string)

  /**
   * How the awaited `fetch` ends: a response with `ok` and its parsed body,
   * a response without `ok`, or a rejection (network failure, unparsable
   * body) carrying the thrown error's message.
   */
  datatype Outcome = Ok(data: Detection) | NotOk | Thrown(message: string)

  /** Which detection endpoint a component posts to. */
  datatype Mode = SimpleDetect | AugmentedDetect

  function EndpointPath(mode: Mode): string {
    match mode
    case SimpleDetect => "/api/v1/detect/"
    case AugmentedDetect => "/api/v1/detect/augmented"
  }

  /** The POST issued by `handleAnalyze`: endpoint path and the one form field. */
  datatype Request = Request(path: string, field: string, file: Option<File>)

  /** The `isAnalyzing`, `result` and `error` slots of a component. */
  datatype Status = Status(isAnalyzing: bool, result: Option<Detection>, error: Option<string>)

  const IdleStatus := Status(false, None, None)

  /** The error set by the file guard for a selected or dropped file. */
  function Screen(st: Status, file: Option<File>): (r: Status)
    ensures r.isAnalyzing == st.isAnalyzing && r.result == st.result
    ensures r.error.None? <==> Accepts(file)
    ensures r.error.Some? ==> r.error.value == InvalidFileMessage
  {
    if Accepts(file) then st.(error := None) else st.(error := Some(InvalidFileMessage))
  }

  /** The synchronous start of `handleAnalyze`'s `try` block. */
  function Begin(st: Status): (r: Status)
    ensures r.isAnalyzing
    ensures r.error.None?
    ensures r.result == st.result
  {
    st.(isAnalyzing := true, error := None)
  }

  /** The awaited part of `handleAnalyze`: the `try` tail, `catch` and `finally`. */
  function Finish(st: Status, outcome: Outcome): (r: Status)
    ensures !r.isAnalyzing
    ensures outcome.Ok? ==> r.result == Some(outcome.data) && r.error == st.error
    ensures outcome.NotOk? ==> r.result == st.result && r.error == Some(AnalysisFailedMessage)
    ensures outcome.Thrown? ==> r.result == st.result && r.error == Some(outcome.message)
  {
    match outcome
    case Ok(data) => st.(result := Some(data), isAnalyzing := false)
    case NotOk => st.(error := Some(AnalysisFailedMessage), isAnalyzing := false)
    case Thrown(msg) => st.(error := Some(msg), isAnalyzing := false)
  }

  /**
   * One whole submission: busy is cleared in every outcome, a success sets
   * the result and leaves no error, a failure keeps the old result and
   * reports the failure.
   */
  lemma SubmissionLifecycle(st: Status, outcome: Outcome)
    ensures var r := Finish(Begin(st), outcome);
      && !r.isAnalyzing
      && (r.error.None? <==> outcome.Ok?)
      && (outcome.Ok? ==> r.result == Some(outcome.data))
      && (!outcome.Ok? ==> r.result == st.result)
      && (outcome.NotOk? ==> r.error == Some(AnalysisFailedMessage))
  {
  }
}
